=== FILE: README.md ===
# Classroom portal front-end: session and list rules in Dafny

This project models the logic of a school classroom portal's browser
front-end. Everything else in that code base is markup and HTTP calls.
The modelled parts are:

- **Token decoding** (`jwt.dfy`, module `Jwt`). A bearer token in the JWS
  compact form of section 7.1 of RFC 7515 is split on `.`. Its middle
  segment is base64url-decoded (section 5 of RFC 4648) and read as UTF-8;
  bytes that are not UTF-8 fall back to the raw decoded string. The text is
  parsed as a JSON claim set (RFC 7519). The roles come from the `role`
  claim or from the Microsoft role-claim URI. A token without three
  segments, a base64 failure and a `JSON.parse` failure yield "no
  payload", and so does a claim set that parses to `null`.
- **The session** (`auth_context.dfy`, module `AuthContext`). The state is
  one nullable token mirrored into the `localStorage` slot `access_token`.
  The payload, the roles and `isAuthed` are derived from it. It also covers
  `setToken`, `logout` and the `useAuth` accessor.
- **The route gate** (`role_guard.dfy`, module `RoleGuard`). It decides
  between a redirect to `/login`, a redirect to `/classrooms`, and
  rendering the page.
- **The top bar** (`topbar.dfy`, module `Topbar`): the page title by
  first-matching path prefix, and the role pill.
- **The classrooms page** (`classrooms_page.dfy`, module `ClassroomsPage`).
  It covers the sorted distinct grades, the grouping by grade, the
  classrooms of the selected grade, the grade chosen on load, and `create`.
- **The resources page** (`resources_page.dfy`, module `ResourcesPage`).
  It covers the classroom chosen from the URL, the default category, the
  category filter, the displayed classroom name, and `load` and `upload`.

Supporting modules:

- `wrappers.dfy` (`Option`, `Result`).
- `text.dfy` (`split`, `join`, and radix numerals with their parse-back).
- `seqs.dfy` (`filter` and `some`).
- `jsvalue.dfy`: JSON values with JavaScript truthiness, property access,
  `??` and `String(v)`.
- `api.dfy`: the API records, and the outcome of an awaited request.

How the model represents the program:

- The browser functions whose internals are not modelled are fields of a
  `Jwt.Platform` record: `atob`, the UTF-8 step of `decodeURIComponent`,
  and `JSON.parse`. Each returns `None` where the real one throws. The
  steps around them are modelled concretely: the padding, the alphabet
  translation, the `%hh` escaping with its `slice(-2)`, and the percent
  decoding.
- `localStorage` is the `storage` map of `AuthContext.Session`.
- Each asynchronous page handler becomes a pure function. It takes the
  page state and the outcome of each awaited request (`Api.Fetch`), and
  returns the state after all its `set…` calls.

Three behaviours of the code that are easy to miss:

- `isAuthed` is `!!token`, so an empty-string token is *not*
  authenticated, although it is a token.
- `getRoles` uses `??`. A present but falsy `role` claim, such as `""`,
  `false` or `0`, therefore blocks the Microsoft fallback claim.
- `decodeJwt` returns whatever `JSON.parse` produces, which need not be an
  object: the payload can be `5`, `"x"` or an array. `GetRoles` finds no
  roles in a non-object. `payload?.sub` is `undefined` for a number, a
  boolean or an array, but for a string it is the inherited method
  `String.prototype.sub`, which is truthy: such a payload passes the
  teacher-id guards of `create` and `upload` (`Jwt.Subject`). A parsed `null` is
  the same JavaScript `null` as a failure, so `Jwt.AsPayload` maps both to
  `None`.

## Model

| member | source | states |
|---|---|---|
| Text.Split | src/auth/jwt.ts:28 | `split('.')` gives one more part than there are dots, no part contains a dot, and joining the parts restores the token |
| Text.SplitJoin | src/auth/jwt.ts:28 | splitting undoes joining for separator-free parts, so the parts are determined by the token |
| Text.ParseRadixOfRadix | src/auth/jwt.ts:19 | the numeral `toString(radix)` writes reads back as the same number |
| Text.Decimal | src/auth/jwt.ts:43-44 | `String(n)` of an integer is its canonical decimal numeral: it reads back as `n`, has a `-` exactly when `n` is negative, and has no leading zero except in `0` itself |
| JsValue.Coalesce | src/auth/jwt.ts:39-41 | `a ?? b` is `b` exactly when `a` is `undefined` or `null`, and `a` otherwise |
| JsValue.Prop | src/auth/jwt.ts:40-41 | an own-property lookup finds a value exactly when the value is an object with that key, and then returns that key's value; `role` and the role-claim URI are inherited by no JSON value, so for them this is the whole of `payload[key]` |
| JsValue.ToJsString | src/auth/jwt.ts:43-44 | `String(v)` is `null`, `true`/`false`, the string itself, the canonical numeral of a number, `[object Object]` for an object without an own `toString` key, `""` for an empty array, and the element for a one-string array |
| Api.ErrorValue | src/pages/ClassroomsPage.tsx:33 | `e?.response?.data ?? fallback` is the response body as it is (text, object or other value) unless it is missing or `null`, and then the fallback text |
| Api.ErrorBanner | src/pages/ClassroomsPage.tsx:94-97 | the error banner is shown exactly for a truthy error value, and shows `String(err)` |
| Api.FailureBanner | src/pages/ClassroomsPage.tsx:52 | on the classrooms page, whose banner is unconditional, a failure without a body shows the fallback text, a non-empty text body shows itself, and an error object without an own `toString` shows `[object Object]` |
| Jwt.PadLength | src/auth/jwt.ts:12 | the padding is 0 to 3 characters and brings the length to a multiple of 4 |
| Jwt.ReplaceAll | src/auth/jwt.ts:13 | a global one-character replace keeps the length and changes exactly the matching positions |
| Jwt.ToStandardAlphabet | src/auth/jwt.ts:13 | after translation no `-` or `_` remains; every `-` became `+`, every `_` became `/`, and every other character is unchanged |
| Jwt.PrepareBase64 | src/auth/jwt.ts:12-14 | the string given to `atob` has a length that is a multiple of 4; it begins with the translated input and ends with at most three `=` |
| Jwt.PrepareUndoesBase64Url | src/auth/jwt.ts:12-13 | padding and translation exactly recover a standard base64 string from the unpadded base64url form an issuer writes |
| Jwt.TwoHex | src/auth/jwt.ts:19 | `('00' + code.toString(16)).slice(-2)` is always two hex digits, and their value is `code % 256` |
| Jwt.PercentEscape | src/auth/jwt.ts:17-20 | the escaped string has one triplet per decoded character: `%` followed by that character's two hex digits |
| Jwt.UnescapePercentEscape | src/auth/jwt.ts:16-20 | the `%hh` string built from the decoded characters always percent-decodes, and to exactly their byte values |
| Jwt.DecodeUriComponent | src/auth/jwt.ts:16 | `decodeURIComponent` throws when the percent-decoding fails, and otherwise gives the UTF-8 reading of the decoded bytes |
| Jwt.DecodeUriComponentOfEscape | src/auth/jwt.ts:16-21 | decoding the escape of the `atob` output is exactly the UTF-8 reading of its bytes |
| Jwt.Base64UrlDecode | src/auth/jwt.ts:11-25 | the result is absent exactly when `atob` throws; otherwise it is the UTF-8 reading of the decoded bytes, or the raw decoded string when that reading fails |
| Jwt.Utf8FailureFallsBackToRaw | src/auth/jwt.ts:22-23 | when the bytes are not UTF-8, the claims are parsed from the raw byte string instead of the token being rejected |
| Jwt.AsPayload | src/auth/jwt.ts:30-34 | a thrown `JSON.parse` and a parsed `null` both give no payload; any other parse result is the payload |
| Jwt.DecodeSegment | src/auth/jwt.ts:31 | the middle segment decodes to nothing when `atob` throws, and otherwise to the parse of the decoded text; a payload is never `null` |
| Jwt.DecodeJwt | src/auth/jwt.ts:27-35 | a token without exactly two dots decodes to nothing; otherwise the result is the decoding of the middle segment |
| Jwt.DecodeJwtReadsOnlyPayload | src/auth/jwt.ts:28-31 | the decoded claims depend on the middle segment only, whatever the header and signature |
| Jwt.DecodeJwtRoundTrip | src/auth/jwt.ts:27-34 | a token whose payload segment is the base64url form of a base64 string decodes to the claims the browser decodes and parses from that string (`null` claims giving no payload) |
| Jwt.Subject | src/pages/ClassroomsPage.tsx:10 | `payload?.sub` is the inherited `String.prototype.sub` exactly when the payload is a string, the `sub` claim exactly when it is an object with that claim, and `undefined` otherwise |
| Jwt.StringPayloadHasTeacherId | src/pages/ResourcesPage.tsx:24 | a payload that parsed to a string has a truthy teacher id but no roles |
| Jwt.TeacherIdText | src/api/resources.api.ts:22 | `String(teacherId)` is the claim's string conversion, or the source text of the `sub` method |
| Jwt.TeacherIdJson | src/api/classrooms.api.ts:20-21 | the posted `teacherUserId` is the claim, and is left out of the JSON body for the method |
| Jwt.RoleValues | src/auth/jwt.ts:42-44 | a falsy role value gives no roles; an array gives `String` of each element, in order; any other truthy value gives the one role `String(v)` |
| Jwt.GetRoles | src/auth/jwt.ts:37-45 | there are no roles without a truthy object payload; `role` decides whenever it is neither missing nor `null`, and otherwise the Microsoft role claim decides |
| Jwt.FalsyRoleBlocksFallback | src/auth/jwt.ts:39-42 | a present but falsy `role` claim gives no roles even if the Microsoft claim holds some |
| Jwt.SingleRoleClaim | src/auth/jwt.ts:37-45 | the claims `{"sub":"42","role":"Teacher","exp":9999999999}` give the roles `["Teacher"]` |
| Jwt.RoleArrayClaim | src/auth/jwt.ts:43 | the claims `{"role":["Teacher","SuperAdmin"]}` give both roles in order |
| AuthContext.Start | src/auth/AuthContext.tsx:19-21 | the initial token is the stored `access_token` value, or `null` when the slot is empty |
| AuthContext.Payload | src/auth/AuthContext.tsx:23 | an empty or missing token has no payload, and neither has a token without exactly two dots; a three-segment token's payload is the decoding of its middle segment |
| AuthContext.State | src/auth/AuthContext.tsx:23-41 | `isAuthed` is `!!token`; the payload is `decodeJwt(token)` for a truthy token and `null` otherwise; the roles are `getRoles(payload)`; an unauthenticated session has neither payload nor roles |
| AuthContext.SetToken | src/auth/AuthContext.tsx:26-30 | the token becomes `t`; the slot then holds `t` when it is truthy and is removed otherwise; no other storage key changes |
| AuthContext.Logout | src/auth/AuthContext.tsx:32 | logging out leaves no token and an empty slot, and the rest of storage untouched |
| AuthContext.LogoutIsSetTokenNull | src/auth/AuthContext.tsx:32 | `logout()` gives exactly the session `setToken(null)` gives |
| AuthContext.SetTokenLastWins | src/auth/AuthContext.tsx:26-30 | a second `setToken` erases all trace of the first, so `setToken(t); setToken(t)` equals `setToken(t)` |
| AuthContext.ClearingAnonymousSessionIsNoOp | src/auth/AuthContext.tsx:26-30 | `setToken(null)` on a session with no token and an empty slot changes nothing |
| AuthContext.MalformedTokenIsAuthedWithoutRoles | src/auth/AuthContext.tsx:23-38 | a non-empty token that is not three segments is authenticated, with no payload and no roles |
| AuthContext.ReloadRestoresSession | src/auth/AuthContext.tsx:19-30 | starting again from the stored slot gives the same payload, roles and authentication as before the reload; an empty-string token comes back as `null` |
| AuthContext.UseAuth | src/auth/AuthContext.tsx:46-50 | `useAuth` fails with its configuration error exactly when there is no provider value, and otherwise returns that value |
| AuthContext.Replay | src/auth/AuthContext.tsx:26-32 | after any run of `setToken`/`logout` calls, the token is the one the last call set, the slot mirrors it, and no other key changes |
| RoleGuard.AnyAllowed | src/auth/RoleGuard.tsx:14 | `roles.some(r => allow.includes(r))` holds exactly when some role is in the allow list |
| RoleGuard.Guard | src/auth/RoleGuard.tsx:13-16 | an unauthenticated user goes to `/login`; an authenticated user goes to `/classrooms` when no role is allowed, and sees the page otherwise |
| RoleGuard.EmptyListRedirects | src/auth/RoleGuard.tsx:14-15 | with no role, or an empty allow list, an authenticated user is always sent to `/classrooms` |
| RoleGuard.GuardSession | src/auth/RoleGuard.tsx:12-16 | a session without a truthy token is sent to `/login`; one with a truthy token sees the page exactly when a role decoded from that token is allowed, and is sent to `/classrooms` otherwise |
| RoleGuard.MalformedTokenNeverRenders | src/auth/RoleGuard.tsx:12-15 | a session holding a malformed token is always sent to `/classrooms` |
| RoleGuard.AdminPageGate | src/pages/AdminPage.tsx:8 | a plain teacher is turned away from the admin page, and a teacher who is also a super-admin is let in |
| Topbar.PageTitleIsFirstMatch | src/components/Topbar.tsx:4-12 | the title is the one of the first prefix in the fixed order that the path starts with, or `Classroom` when none matches |
| Topbar.PageTitle | src/components/Topbar.tsx:4-12 | the title is the default or the title of a listed prefix the path starts with, and a path under `/admin` is always titled `Admin` |
| Topbar.ExtensionKeepsTitle | src/components/Topbar.tsx:5-10 | any extension of a listed prefix (for example `/resourcesX`) gets that prefix's title |
| Topbar.RolePill | src/components/Topbar.tsx:27-29 | the pill is shown exactly when authenticated, and shows the first role, or `User` when there is none |
| Topbar.MalformedTokenShowsUserPill | src/components/Topbar.tsx:29 | a session holding a malformed token shows the `User` pill |
| ClassroomsPage.Grades | src/pages/ClassroomsPage.tsx:56-59 | the grade list is strictly ascending and holds exactly the grade ids of the classrooms |
| ClassroomsPage.AscendingUnique | src/pages/ClassroomsPage.tsx:57 | two strictly ascending lists with the same elements are equal |
| ClassroomsPage.GradesIsSortedDistinct | src/pages/ClassroomsPage.tsx:57 | the grade list equals every sorted list of the distinct grade ids, whatever the order and repetition of the classrooms |
| ClassroomsPage.Grouped | src/pages/ClassroomsPage.tsx:61-68 | the map's keys are exactly the grade ids, and each bucket is the sub-list of that grade's classrooms in list order |
| ClassroomsPage.GroupedPlacesEachOnce | src/pages/ClassroomsPage.tsx:61-68 | each classroom is in the bucket of its own grade, as often as it occurs in the list, and in no other bucket |
| ClassroomsPage.ClassroomsForGrade | src/pages/ClassroomsPage.tsx:70-73 | there are no classrooms without a selected grade or for an absent grade; otherwise they are that grade's classrooms in list order |
| ClassroomsPage.SelectedAfterLoad | src/pages/ClassroomsPage.tsx:28-31 | a load with data and no selection selects the smallest grade id present; otherwise the selection is unchanged |
| ClassroomsPage.Initial | src/pages/ClassroomsPage.tsx:12-20 | on mount the page is busy, lists nothing, has no error and no selected grade, and the form is empty on grade 1 and subject 1 |
| ClassroomsPage.FirstLoadSelectsLeastGrade | src/pages/ClassroomsPage.tsx:22-36 | the first successful load after mount lists the data, ends busy without error, and selects the smallest grade id exactly when there is a classroom |
| ClassroomsPage.AfterLoad | src/pages/ClassroomsPage.tsx:22-37 | a successful load replaces the list and clears the error; a failed one keeps the list and selection and sets the error text; the page ends not busy |
| ClassroomsPage.CreateRequestFor | src/pages/ClassroomsPage.tsx:43-47 | `create` sends nothing unless `payload?.sub` is truthy (so nothing without a payload); otherwise it sends the form's fields and that teacher id as JSON |
| ClassroomsPage.StringPayloadCreatesWithoutTeacher | src/pages/ClassroomsPage.tsx:43-47 | with a string payload `create` goes ahead and posts a body with no `teacherUserId` |
| ClassroomsPage.AfterCreate | src/pages/ClassroomsPage.tsx:43-54 | without a truthy `payload?.sub` nothing changes; on success the name is cleared, the list reloaded (error cleared, or the load error and the old list when the reload fails) and the new grade selected; on failure only the error changes; the form's grade and subject are always kept |
| ResourcesPage.ChooseClassroom | src/pages/ResourcesPage.tsx:40-45 | a non-zero, listed URL id is selected; otherwise the first listed classroom is; with an empty list the selection is unchanged; the result is always a listed id or the old one |
| ResourcesPage.WithDefaultCategories | src/pages/ResourcesPage.tsx:62-65 | defaulting keeps length, order and all other fields; a non-empty category is kept and a missing or empty one becomes `Past Papers` |
| ResourcesPage.DefaultingIsIdempotent | src/pages/ResourcesPage.tsx:62-65 | defaulting an already defaulted list changes nothing |
| ResourcesPage.FilteredRows | src/pages/ResourcesPage.tsx:103-106 | the rows are exactly the items of the selected category, each as often as it occurs, in their original order |
| ResourcesPage.UncategorisedListedByDefault | src/pages/ResourcesPage.tsx:62-65 | a resource loaded without a category is listed under `Past Papers` |
| ResourcesPage.FindById | src/pages/ResourcesPage.tsx:109 | `find` returns the position of the first classroom with the id, or nothing when no classroom has it |
| ResourcesPage.SelectedClassroomName | src/pages/ResourcesPage.tsx:108-111 | the name is that of the first classroom with the id, and `Unknown` when there is none or its name is empty |
| ResourcesPage.Initial | src/pages/ResourcesPage.tsx:26-32 | on mount nothing is loaded, busy, failed or chosen, `Past Papers` is shown, and the first `load` asks for the URL's classroom unless its id is 0 |
| ResourcesPage.AfterLoadClassrooms | src/pages/ResourcesPage.tsx:35-49 | a loaded list is stored and the URL's classroom selected when it is non-zero and listed, else the first one, else the selection kept; a failure sets `Failed to load classrooms` and keeps list and selection; resources, busy flag, file and category never change |
| ResourcesPage.ShownError | src/pages/ResourcesPage.tsx:134-151 | the resources page shows its error banner only while some classroom is listed, and then exactly for a truthy error, as `String(err)` |
| ResourcesPage.ClassroomLoadFailureHidden | src/pages/ResourcesPage.tsx:46-47 | when the classroom list fails to load on mount, the error is set but never displayed, because nothing is listed |
| ResourcesPage.ResourceListRequest | src/pages/ResourcesPage.tsx:56-60 | `load` requests the selected classroom's resources, and nothing while the classroom id is 0 |
| ResourcesPage.AfterLoadResources | src/pages/ResourcesPage.tsx:55-72 | nothing happens for classroom 0; otherwise loaded rows are stored with defaulted categories and the error cleared, or the error is set and the rows kept; the page ends not busy; classrooms, file and category never change |
| ResourcesPage.UploadRequestFor | src/pages/ResourcesPage.tsx:79-83 | `upload` sends nothing unless a classroom is selected, a file is chosen and `payload?.sub` is truthy; then it sends that classroom, the file and `String(teacherId)` |
| ResourcesPage.StringPayloadUploadsMethodText | src/pages/ResourcesPage.tsx:79-83 | with a string payload, a selected classroom and a file, `upload` goes ahead with the `sub` method's source text as the teacher id |
| ResourcesPage.AfterUpload | src/pages/ResourcesPage.tsx:55-91 | without a request (no classroom, no file or no truthy `payload?.sub`) nothing changes; on success the file is cleared and the list reloaded, with the error cleared or set to the load error when the reload fails; on failure the file and list stay and the error is set; the page ends not busy; classrooms and category never change |

## Left out

- Internals of `atob`, of UTF-8 decoding and of `JSON.parse`: these are uninterpreted `Jwt.Platform` functions. The round trip is therefore stated relative to what they return.
- `decodeURIComponent` on input other than `%hh` triplets: `Jwt.Unescape` handles only triplet strings, and those are the only strings this code passes to it.
- JavaScript strings are UTF-16. The model uses Dafny strings of Unicode scalar values, so `length` and `charCodeAt` differ for characters outside the Basic Multilingual Plane. `atob` never produces such characters, and it throws on any input character outside the base64 alphabet and ASCII whitespace (which it skips), so a token segment holding such a character decodes to no payload either way.
- JsValue.ToJsString: numbers are integers. Floating point, `NaN`, exponent notation and `-0` are not modelled.
- JsValue.ToJsString: `String(v)` throws a `TypeError` for a parsed object with an own `toString` key (JSON cannot make that key a function), and for an array holding such an object; the model is total and gives `[object Object]` there instead. The consequences not modelled: `Jwt.GetRoles` on a role claim such as `{"toString":0}` throws during the provider's render, so the whole app fails to render on every load while the token stays stored; `Api.ErrorBanner` on such an error body throws while rendering the page; and `Jwt.TeacherIdText` on such a `sub` claim throws inside `upload`'s `try`, so nothing is sent and the error becomes `Upload failed`.
- Text.Decimal: JavaScript writes integers of magnitude 10^21 or more in exponent form (`1e+21`) and rounds integers above 2^53; the model writes every integer in full, so its promise holds for JavaScript only below 10^21 in magnitude and for exactly representable values.
- Jwt.TeacherIdText: the text of `String(String.prototype.sub)` is the engine's; the model fixes the form the common browsers print.
- Inherited properties in general are not modelled. The names read here are `role`, the role-claim URI and `sub`; no prototype of a JSON value has the first two, and the one inherited case, `sub` on a string, is modelled in `Jwt.Subject`.
- `Number(params.get('classroomId') ?? 0)`: the query-string coercion is left out. The page handlers take the URL id as an integer.
- React rendering, hooks, memo timing and stale closures: each handler is modelled as one pure transition from the state it was called in.
- The `disabled` attributes on buttons and inputs are left out, for example `!name.trim()` on the create button. They are markup, not handler guards.
- The HTTP layer (`src/api/http.ts` and the `*.api.ts` request functions): requests are replaced by their outcomes. The Bearer-header interceptor and the network are not modelled.
- The fourth `upload` argument, `selectedCategory`, is dropped by the API wrapper. `ResourcesPage.UploadRequest` therefore has no category.
- `download`/`downloadBlob`, the clipboard copy, and date formatting are browser APIs with no logic to model.
- `Sidebar.tsx`, `Layout.tsx`, `DashboardPage.tsx`, `LoginPage.tsx`, `RegisterPage.tsx`, `App.tsx` and `AdminPage.tsx` are static layout, route table and form wiring. Only the admin page's allow list is used, in `RoleGuard.AdminPageGate`.

=== FILE: api.dfy ===
/** The records the REST API returns (src/api/classrooms.api.ts,
    src/api/resources.api.ts) and the two outcomes of a request. The HTTP
    calls themselves are not modelled: a page's handler receives the
    outcome as a parameter. */
module Api {
  import opened Wrappers
  import opened JsValue

  datatype Classroom = Classroom(id: int, name: string, gradeId: int, subjectId: int, teacherUserId: string)

  /** A resource row. The API type declares no category; the page reads one
      anyway, so it is optional here. */
  datatype Resource = Resource(id: int, classroomId: int, fileName: string, uploadedAt: string,
                               category: Option<string>)

  /** An awaited request: its data, or the failure with the parsed response
      body `e?.response?.data` (`undefined` when there is no response). The
      body is whatever the server sent: a string, an error object, `null`. */
  datatype Fetch<T> = Fetched(data: T) | FetchFailed(responseData: Option<Json>)

  /** The value `setErr(e?.response?.data ?? fallback)` stores: the response
      body as it is, unless it is missing or `null`, then the fallback text. */
  function ErrorValue(responseData: Option<Json>, fallback: string): (err: Json)
    ensures !Nullish(responseData) ==> err == responseData.value
    ensures Nullish(responseData) ==> err == JStr(fallback)
  {
    Coalesce(responseData, Some(JStr(fallback))).value
  }

  /** The error banner `{err && <div>{String(err)}</div>}`: shown exactly for
      a truthy error value, with that value's string conversion. */
  function ErrorBanner(err: Option<Json>): (shown: Option<string>)
    ensures shown.Some? <==> TruthyOpt(err)
    ensures shown.Some? ==> shown.value == ToJsString(err.value)
  {
    if TruthyOpt(err) then Some(ToJsString(err.value)) else None
  }

  /** What a failed request shows: the fallback text when the server sent no
      body, a non-empty text body as it is, and `[object Object]` for an
      error object. */
  lemma FailureBanner(responseData: Option<Json>, fallback: string)
    requires fallback != ""
    ensures Nullish(responseData) ==> ErrorBanner(Some(ErrorValue(responseData, fallback))) == Some(fallback)
    ensures responseData.Some? && responseData.value.JStr? && responseData.value.s != "" ==>
      ErrorBanner(Some(ErrorValue(responseData, fallback))) == Some(responseData.value.s)
    ensures responseData.Some? && responseData.value.JObj? ==>
      ErrorBanner(Some(ErrorValue(responseData, fallback))) == Some("[object Object]")
  {
  }
}

=== FILE: auth_context.dfy ===
/** The session held by the auth provider (src/auth/AuthContext.tsx): one
    nullable token, mirrored into the browser's `localStorage` slot
    `access_token`; payload, roles and the authenticated flag are derived
    from it on every read. */
module AuthContext {
  import opened Wrappers
  import opened JsValue
  import Jwt
  import Text

  const TokenKey: string := "access_token"
  const UseAuthError: string := "useAuth must be used within AuthProvider"

  /** The provider's state together with the browser storage it writes. */
  datatype Session = Session(token: Option<string>, storage: map<string, string>)

  /** The value the provider hands to its consumers. */
  datatype AuthState = AuthState(token: Option<string>, payload: Option<Json>, roles: seq<string>,
                                 isAuthed: bool)

  /** JavaScript truthiness of a `string | null`. */
  predicate Present(t: Option<string>)
  {
    t.Some? && t.value != ""
  }

  /** Start-up: the token is whatever `localStorage.getItem('access_token')`
      returns, `null` when the slot is empty. */
  function Start(storage: map<string, string>): (s: Session)
    ensures s.storage == storage
    ensures s.token.Some? <==> TokenKey in storage
    ensures s.token.Some? ==> s.token.value == storage[TokenKey]
  {
    Session(if TokenKey in storage then Some(storage[TokenKey]) else None, storage)
  }

  /** `token ? decodeJwt(token) : null`: no payload for a falsy or
      malformed token, and otherwise the decoding of the token's middle
      segment. */
  function Payload(p: Jwt.Platform, token: Option<string>): (payload: Option<Json>)
    ensures !Present(token) ==> payload.None?
    ensures Present(token) && Text.Count(token.value, '.') != 2 ==> payload.None?
    ensures Present(token) && Text.Count(token.value, '.') == 2 ==>
      payload == Jwt.DecodeSegment(p, Text.Split(token.value, '.')[1])
  {
    if Present(token) then Jwt.DecodeJwt(p, token.value) else None
  }

  /** What consumers see: `isAuthed` is `!!token`, whatever the payload;
      roles can only be non-empty for an authenticated session. */
  function State(p: Jwt.Platform, s: Session): (st: AuthState)
    ensures st.token == s.token
    ensures st.isAuthed <==> Present(s.token)
    ensures st.payload == (if Present(s.token) then Jwt.DecodeJwt(p, s.token.value) else None)
    ensures st.roles == Jwt.GetRoles(st.payload)
    ensures !st.isAuthed ==> st.payload.None? && st.roles == []
  {
    var payload := Payload(p, s.token);
    AuthState(s.token, payload, Jwt.GetRoles(payload), Present(s.token))
  }

  /** Storage outside the token slot is the same in both maps. */
  predicate SameOutsideSlot(a: map<string, string>, b: map<string, string>)
  {
    a - {TokenKey} == b - {TokenKey}
  }

  /** The storage slot mirrors the token: it holds a truthy token and is
      empty otherwise. */
  predicate Mirrored(s: Session)
  {
    if Present(s.token) then TokenKey in s.storage && s.storage[TokenKey] == s.token.value
    else TokenKey !in s.storage
  }

  /** `setToken(t)`: the token becomes `t`; storage gets `t` when it is
      truthy and loses the slot otherwise; no other key is touched. */
  function SetToken(s: Session, t: Option<string>): (s': Session)
    ensures s'.token == t
    ensures Mirrored(s')
    ensures SameOutsideSlot(s.storage, s'.storage)
  {
    Session(t, if Present(t) then s.storage[TokenKey := t.value] else s.storage - {TokenKey})
  }

  /** `logout()`: no token, an empty slot, the rest of storage untouched. */
  function Logout(s: Session): (s': Session)
    ensures s'.token.None?
    ensures TokenKey !in s'.storage
    ensures SameOutsideSlot(s.storage, s'.storage)
  {
    SetToken(s, None)
  }

  /** Two sessions agreeing on token and storage are the same session. */
  lemma SessionsEqual(a: Session, b: Session)
    requires a.token == b.token && Mirrored(a) && Mirrored(b)
    requires SameOutsideSlot(a.storage, b.storage)
    ensures a == b
  {
    forall k | k != TokenKey
      ensures (k in a.storage <==> k in b.storage) && (k in a.storage ==> a.storage[k] == b.storage[k])
    {
      assert k in a.storage <==> k in a.storage - {TokenKey};
      assert k in b.storage <==> k in b.storage - {TokenKey};
      if k in a.storage {
        assert a.storage[k] == (a.storage - {TokenKey})[k];
        assert b.storage[k] == (b.storage - {TokenKey})[k];
      }
    }
    assert a.storage == b.storage;
  }

  /** `logout()` and `setToken(null)` end in the same session from any state. */
  lemma LogoutIsSetTokenNull(s: Session)
    ensures Logout(s) == SetToken(s, None)
  {
  }

  /** The last `setToken` wins: an earlier one leaves no trace. Calling it
      twice with the same token is the same as calling it once. */
  lemma {:induction false} SetTokenLastWins(s: Session, t: Option<string>, u: Option<string>)
    ensures SetToken(SetToken(s, t), u) == SetToken(s, u)
    ensures SetToken(SetToken(s, u), u) == SetToken(s, u)
  {
    SessionsEqual(SetToken(SetToken(s, t), u), SetToken(s, u));
    SessionsEqual(SetToken(SetToken(s, u), u), SetToken(s, u));
  }

  /** `setToken(null)` with no token held and an empty slot changes nothing. */
  lemma ClearingAnonymousSessionIsNoOp(s: Session)
    requires s.token.None? && TokenKey !in s.storage
    ensures SetToken(s, None) == s
  {
    assert s.storage - {TokenKey} == s.storage;
  }

  /** A non-empty token that is not a three-segment JWT still counts as
      authenticated, but carries no payload and no roles. */
  lemma MalformedTokenIsAuthedWithoutRoles(p: Jwt.Platform, s: Session, t: string)
    requires t != "" && Text.Count(t, '.') != 2
    ensures var st := State(p, SetToken(s, Some(t)));
      st.isAuthed && st.payload.None? && st.roles == []
  {
  }

  /** After a reload the provider starts from what `setToken` stored: the
      same payload, roles and authentication, and the same token except that
      an empty-string token comes back as `null`. */
  lemma ReloadRestoresSession(p: Jwt.Platform, s: Session, t: Option<string>)
    ensures var before := State(p, SetToken(s, t));
      var after := State(p, Start(SetToken(s, t).storage));
      && after.payload == before.payload
      && after.roles == before.roles
      && after.isAuthed == before.isAuthed
      && after.token == (if Present(t) then t else None)
  {
  }

  /** `useAuth()`: the provider's value, or the configuration error when
      called outside any provider. */
  function UseAuth(ctx: Option<AuthState>): (r: Result<AuthState, string>)
    ensures r.Success? <==> ctx.Some?
    ensures r.Success? ==> r.value == ctx.value
    ensures r.Failure? ==> r.error == UseAuthError
  {
    match ctx
    case Some(v) => Success(v)
    case None => Failure(UseAuthError)
  }

  /** The two mutators consumers can call. */
  datatype Event = SetTokenTo(t: Option<string>) | LogoutClicked

  function Apply(s: Session, e: Event): Session
  {
    match e
    case SetTokenTo(t) => SetToken(s, t)
    case LogoutClicked => Logout(s)
  }

  function TokenAfter(e: Event): Option<string>
  {
    match e
    case SetTokenTo(t) => t
    case LogoutClicked => None
  }

  /** A run of mutations in program order: the token is the one the last
      event set, storage mirrors it, and no other storage key changes. */
  method Replay(s: Session, events: seq<Event>) returns (s': Session)
    ensures |events| == 0 ==> s' == s
    ensures |events| > 0 ==> s'.token == TokenAfter(events[|events| - 1]) && Mirrored(s')
    ensures SameOutsideSlot(s.storage, s'.storage)
  {
    s' := s;
    var i := 0;
    while i < |events|
      invariant 0 <= i <= |events|
      invariant i == 0 ==> s' == s
      invariant i > 0 ==> s'.token == TokenAfter(events[i - 1]) && Mirrored(s')
      invariant SameOutsideSlot(s.storage, s'.storage)
    {
      s' := Apply(s', events[i]);
      i := i + 1;
    }
  }
}

=== FILE: classrooms_page.dfy ===
/** The list rules of the classrooms page (src/pages/ClassroomsPage.tsx):
    the sorted distinct grades, the classrooms grouped by grade, the
    classrooms of the selected grade, the grade chosen on load, and the
    teacher guard of `create`. */
module ClassroomsPage {
  import opened Wrappers
  import opened JsValue
  import opened Api
  import Seqs
  import Jwt

  const LoadFailedText: string := "Failed to load classrooms. Make sure you are logged in."
  const CreateFailedText: string := "Failed to create classroom"

  /** The grade ids occurring in `items`. */
  function GradeSet(items: seq<Classroom>): set<int>
  {
    set c | c in items :: c.gradeId
  }

  predicate StrictlyAscending(s: seq<int>)
  {
    forall i, j :: 0 <= i < j < |s| ==> s[i] < s[j]
  }

  function InsertSorted(s: seq<int>, x: int): (r: seq<int>)
    requires StrictlyAscending(s)
    ensures StrictlyAscending(r)
    ensures forall y :: y in r <==> y in s || y == x
    decreases |s|
  {
    if |s| == 0 then [x]
    else if x < s[0] then [x] + s
    else if x == s[0] then s
    else
      var rest := InsertSorted(s[1..], x);
      assert forall y :: y in s <==> y == s[0] || y in s[1..];
      assert forall y :: y in s[1..] ==> s[0] < y;
      var r := [s[0]] + rest;
      assert forall j :: 0 <= j < |rest| ==> s[0] < rest[j] by {
        forall j | 0 <= j < |rest|
          ensures s[0] < rest[j]
        {
          assert rest[j] in rest;
        }
      }
      assert forall j :: 1 <= j < |r| ==> r[j] == rest[j - 1];
      r
  }

  lemma GradeSetSnoc(items: seq<Classroom>)
    requires |items| > 0
    ensures GradeSet(items) == GradeSet(items[..|items| - 1]) + {items[|items| - 1].gradeId}
  {
    assert items == items[..|items| - 1] + [items[|items| - 1]];
  }

  /** `[...new Set(items.map((c) => c.gradeId))].sort((a, b) => a - b)`:
      strictly ascending, and holding exactly the grade ids of `items`. */
  function Grades(items: seq<Classroom>): (grades: seq<int>)
    ensures StrictlyAscending(grades)
    ensures forall g :: g in grades <==> g in GradeSet(items)
    decreases |items|
  {
    if |items| == 0 then []
    else
      GradeSetSnoc(items);
      InsertSorted(Grades(items[..|items| - 1]), items[|items| - 1].gradeId)
  }

  /** A strictly ascending sequence is determined by its elements, so any
      sort of the distinct grades gives the same list. */
  lemma {:induction false} AscendingUnique(a: seq<int>, b: seq<int>)
    requires StrictlyAscending(a) && StrictlyAscending(b)
    requires forall x :: x in a <==> x in b
    ensures a == b
    decreases |a|
  {
    assert |a| > 0 ==> a[0] in a && a[0] in b;
    assert |b| > 0 ==> b[0] in b && b[0] in a;
    if |a| > 0 {
      assert a[0] == b[0];
      forall x
        ensures x in a[1..] <==> x in b[1..]
      {
        assert x in a[1..] <==> x in a && x != a[0];
        assert x in b[1..] <==> x in b && x != b[0];
      }
      AscendingUnique(a[1..], b[1..]);
      assert a == [a[0]] + a[1..];
      assert b == [b[0]] + b[1..];
    }
  }

  /** `grades` is the sorted list of distinct grade ids, whatever order and
      repetition the classrooms come in. */
  lemma GradesIsSortedDistinct(items: seq<Classroom>, sorted: seq<int>)
    requires StrictlyAscending(sorted)
    requires forall g :: g in sorted <==> g in GradeSet(items)
    ensures Grades(items) == sorted
  {
    AscendingUnique(Grades(items), sorted);
  }

  function HasGrade(g: int): Classroom -> bool
  {
    (c: Classroom) => c.gradeId == g
  }

  /** The classrooms of grade `g`, in list order. */
  function OfGrade(items: seq<Classroom>, g: int): seq<Classroom>
  {
    Seqs.Filter(items, HasGrade(g))
  }

  lemma OfAbsentGrade(items: seq<Classroom>, g: int)
    requires g !in GradeSet(items)
    ensures OfGrade(items, g) == []
  {
    var r := OfGrade(items, g);
    forall x: Classroom
      ensures multiset(r)[x] == 0
    {
      assert x in items ==> x.gradeId in GradeSet(items);
    }
    assert multiset(r) == multiset{};
  }

  /** `grouped`: one bucket per grade id of `items`, holding that grade's
      classrooms in list order. */
  function Grouped(items: seq<Classroom>): (m: map<int, seq<Classroom>>)
    ensures m.Keys == GradeSet(items)
    ensures forall g :: g in m ==> m[g] == OfGrade(items, g)
    decreases |items|
  {
    if |items| == 0 then map[]
    else
      var init, c := items[..|items| - 1], items[|items| - 1];
      var m := Grouped(init);
      GradeSetSnoc(items);
      if c.gradeId in m then m[c.gradeId := m[c.gradeId] + [c]]
      else OfAbsentGrade(init, c.gradeId); m[c.gradeId := [c]]
  }

  /** Every classroom sits in the bucket of its own grade, as often as it
      occurs in the list, and in no other bucket. */
  lemma GroupedPlacesEachOnce(items: seq<Classroom>, c: Classroom)
    requires c in items
    ensures var m := Grouped(items);
      && c.gradeId in m
      && multiset(m[c.gradeId])[c] == multiset(items)[c]
      && forall g :: g in m && g != c.gradeId ==> c !in m[g]
  {
    var m := Grouped(items);
    forall g | g in m && g != c.gradeId
      ensures c !in m[g]
    {
      assert multiset(m[g])[c] == 0;
    }
  }

  /** `classroomsForGrade`: nothing when no grade is selected, otherwise the
      classrooms of that grade (nothing when the grade has none). */
  function ClassroomsForGrade(items: seq<Classroom>, selected: Option<int>): (r: seq<Classroom>)
    ensures selected.None? ==> r == []
    ensures selected.Some? ==> r == OfGrade(items, selected.value)
    ensures selected.Some? && selected.value !in GradeSet(items) ==> r == []
    ensures forall i :: 0 <= i < |r| ==> selected.Some? && r[i].gradeId == selected.value
  {
    match selected
    case None => []
    case Some(g) =>
      var grouped := Grouped(items);
      if g in grouped then grouped[g] else OfAbsentGrade(items, g); []
  }

  /** The grade selected after a successful load: the smallest grade id when
      data arrived and nothing was selected yet, otherwise unchanged. */
  function SelectedAfterLoad(data: seq<Classroom>, selected: Option<int>): (r: Option<int>)
    ensures |data| > 0 && selected.None? ==>
      r.Some? && r.value in GradeSet(data) && forall c :: c in data ==> r.value <= c.gradeId
    ensures !(|data| > 0 && selected.None?) ==> r == selected
  {
    if |data| > 0 && selected.None? then
      var grades := Grades(data);
      assert data[0].gradeId in GradeSet(data);
      assert forall c :: c in data ==> c.gradeId in grades;
      Some(grades[0])
    else selected
  }

  /** The page's state. */
  datatype PageState = PageState(items: seq<Classroom>, busy: bool, err: Option<Json>,
                                 name: string, gradeId: int, subjectId: int,
                                 selectedGrade: Option<int>)

  /** The state on mount: busy with the first load, nothing listed, no error
      and no grade selected; the form starts empty on grade 1, subject 1. */
  function Initial(): (st: PageState)
    ensures st.busy && st.items == [] && st.err.None? && st.selectedGrade.None?
    ensures st.name == "" && st.gradeId == 1 && st.subjectId == 1
  {
    PageState([], true, None, "", 1, 1, None)
  }

  /** The first successful load after mount lists the data, ends busy, and
      selects the smallest grade id when there is any classroom. */
  lemma FirstLoadSelectsLeastGrade(data: seq<Classroom>)
    ensures var st := AfterLoad(Initial(), Fetched(data));
      && st.items == data && !st.busy && st.err.None?
      && (|data| == 0 <==> st.selectedGrade.None?)
      && (|data| > 0 ==> st.selectedGrade.value in GradeSet(data) &&
                         forall c :: c in data ==> st.selectedGrade.value <= c.gradeId)
  {
  }

  /** `load` once the list request has settled. */
  function AfterLoad(st: PageState, outcome: Fetch<seq<Classroom>>): (st': PageState)
    ensures !st'.busy
    ensures st'.name == st.name && st'.gradeId == st.gradeId && st'.subjectId == st.subjectId
    ensures outcome.Fetched? ==> st'.items == outcome.data && st'.err.None?
    ensures outcome.Fetched? ==> st'.selectedGrade == SelectedAfterLoad(outcome.data, st.selectedGrade)
    ensures outcome.FetchFailed? ==>
      && st'.items == st.items && st'.selectedGrade == st.selectedGrade
      && st'.err == Some(ErrorValue(outcome.responseData, LoadFailedText))
  {
    match outcome
    case Fetched(data) =>
      st.(items := data, err := None, busy := false,
          selectedGrade := SelectedAfterLoad(data, st.selectedGrade))
    case FetchFailed(responseData) =>
      st.(err := Some(ErrorValue(responseData, LoadFailedText)), busy := false)
  }

  /** The JSON body `create` posts; `teacherUserId` is absent when the
      teacher id is a function, which `JSON.stringify` leaves out. */
  datatype CreateRequest = CreateRequest(name: string, gradeId: int, subjectId: int, teacherUserId: Option<Json>)

  /** The request `create` sends: none unless `payload?.sub` is truthy, and
      then the form's fields with that teacher id. */
  function CreateRequestFor(st: PageState, payload: Option<Json>): (req: Option<CreateRequest>)
    ensures req.Some? <==> Jwt.TruthyTeacher(Jwt.Subject(payload))
    ensures payload.None? ==> req.None?
    ensures req.Some? ==>
      && req.value.teacherUserId == Jwt.TeacherIdJson(Jwt.Subject(payload).value)
      && req.value.name == st.name && req.value.gradeId == st.gradeId
      && req.value.subjectId == st.subjectId
  {
    if !Jwt.TruthyTeacher(Jwt.Subject(payload)) then None
    else Some(CreateRequest(st.name, st.gradeId, st.subjectId, Jwt.TeacherIdJson(Jwt.Subject(payload).value)))
  }

  /** A payload that parsed to a JSON string passes the teacher-id guard, and
      the classroom is requested with no teacher at all. */
  lemma StringPayloadCreatesWithoutTeacher(st: PageState, s: string)
    ensures CreateRequestFor(st, Some(JStr(s))) == Some(CreateRequest(st.name, st.gradeId, st.subjectId, None))
  {
  }

  /** `create` once its requests have settled: nothing at all without a
      teacher id; on success the name is cleared, the list reloaded (which
      sets or clears the error) and the new classroom's grade selected; on
      failure only the error is set. The form's grade and subject stay. */
  function AfterCreate(st: PageState, payload: Option<Json>, created: Fetch<Classroom>,
                       reload: Fetch<seq<Classroom>>): (st': PageState)
    ensures !Jwt.TruthyTeacher(Jwt.Subject(payload)) ==> st' == st
    ensures Jwt.TruthyTeacher(Jwt.Subject(payload)) && created.Fetched? ==>
      st'.name == "" && st'.selectedGrade == Some(st.gradeId) && !st'.busy
    ensures st'.gradeId == st.gradeId && st'.subjectId == st.subjectId
    ensures Jwt.TruthyTeacher(Jwt.Subject(payload)) && created.Fetched? && reload.Fetched? ==>
      st'.items == reload.data && st'.err.None?
    ensures Jwt.TruthyTeacher(Jwt.Subject(payload)) && created.Fetched? && reload.FetchFailed? ==>
      st'.items == st.items && st'.err == Some(ErrorValue(reload.responseData, LoadFailedText))
    ensures Jwt.TruthyTeacher(Jwt.Subject(payload)) && created.FetchFailed? ==>
      st' == st.(err := Some(ErrorValue(created.responseData, CreateFailedText)))
  {
    match CreateRequestFor(st, payload)
    case None => st
    case Some(_) =>
      match created
      case Fetched(_) =>
        AfterLoad(st.(err := None, name := ""), reload).(selectedGrade := Some(st.gradeId))
      case FetchFailed(responseData) =>
        st.(err := Some(ErrorValue(responseData, CreateFailedText)))
  }
}

=== FILE: jsvalue.dfy ===
/** The values `JSON.parse` produces, and the three JavaScript operations the
    portal applies to them: truthiness (`!v`), property access (`v[key]`,
    `v?.key`) with nullish coalescing (`??`), and conversion with `String(v)`. */
module JsValue {
  import opened Wrappers
  import Text

  /** A parsed JSON value. Numbers are integer-valued (see README). */
  datatype Json =
    | JNull
    | JBool(b: bool)
    | JNum(n: int)
    | JStr(s: string)
    | JArr(items: seq<Json>)
    | JObj(fields: map<string, Json>)

  /** JavaScript truthiness: `null`, `false`, `0` and `""` are falsy; every
      array and object, even an empty one, is truthy. */
  predicate Truthy(v: Json)
  {
    match v
    case JNull => false
    case JBool(b) => b
    case JNum(n) => n != 0
    case JStr(s) => s != ""
    case JArr(_) => true
    case JObj(_) => true
  }

  /** Truthiness of a value that may be `undefined` (`None`). */
  predicate TruthyOpt(v: Option<Json>)
  {
    v.Some? && Truthy(v.value)
  }

  /** `v == null`: `undefined` or `null`. */
  predicate Nullish(v: Option<Json>)
  {
    v.None? || v.value.JNull?
  }

  /** `a ?? b`: the right operand only when the left one is nullish. */
  function Coalesce(a: Option<Json>, b: Option<Json>): (r: Option<Json>)
    ensures !Nullish(a) ==> r == a
    ensures Nullish(a) ==> r == b
  {
    if Nullish(a) then b else a
  }

  /** `v?.[key]` on a value that may be absent, as far as the object's own
      properties go: an own property of an object, `undefined` for
      everything else. Inherited properties are not seen here; among the
      names the portal reads only `sub` is inherited by a JSON value (a
      string's `String.prototype.sub`), and `Jwt.Subject` handles it. */
  function Prop(v: Option<Json>, key: string): (r: Option<Json>)
    ensures r.Some? <==> v.Some? && v.value.JObj? && key in v.value.fields
    ensures r.Some? ==> r.value == v.value.fields[key]
  {
    match v
    case Some(JObj(fields)) => if key in fields then Some(fields[key]) else None
    case _ => None
  }

  /** `String(v)`. An array is joined with commas after turning each
      `null` element into the empty string; a plain object prints as
      `[object Object]`. */
  function ToJsString(v: Json): (s: string)
    ensures v.JNull? ==> s == "null"
    ensures v.JBool? ==> s == (if v.b then "true" else "false")
    ensures v.JStr? ==> s == v.s
    ensures v.JNum? ==> s == Text.Decimal(v.n)
    ensures v.JObj? ==> s == "[object Object]"
    ensures v.JArr? && |v.items| == 0 ==> s == ""
    ensures v.JArr? && |v.items| == 1 && v.items[0].JStr? ==> s == v.items[0].s
    decreases v
  {
    match v
    case JNull => "null"
    case JBool(b) => if b then "true" else "false"
    case JNum(n) => Text.Decimal(n)
    case JStr(s) => s
    case JArr(items) =>
      Text.Join(seq(|items|, i requires 0 <= i < |items| =>
                      if items[i].JNull? then "" else ToJsString(items[i])), ',')
    case JObj(_) => "[object Object]"
  }

  /** `items.map(String)`. */
  function MapToJsString(items: seq<Json>): (r: seq<string>)
    ensures |r| == |items|
    ensures forall i :: 0 <= i < |items| ==> r[i] == ToJsString(items[i])
    decreases |items|
  {
    if |items| == 0 then [] else [ToJsString(items[0])] + MapToJsString(items[1..])
  }
}

=== FILE: jwt.dfy ===
/** Client-side decoding of the bearer token (src/auth/jwt.ts): the JWS
    compact serialization of section 7.1 of RFC 7515 is split on `.`, its
    middle segment is base64url-decoded (section 5 of RFC 4648), read as
    UTF-8 and parsed as the JSON claim set of RFC 7519. Signatures and expiry
    are never checked. */
module Jwt {
  import opened Wrappers
  import opened JsValue
  import Text

  type Byte = b: int | 0 <= b < 256

  /** The browser functions the decoder calls but whose internals are not
      modelled: `atob`, the UTF-8 decoding inside `decodeURIComponent`, and
      `JSON.parse`. `None` stands for "throws". */
  datatype Platform = Platform(
    atob: string -> Option<string>,
    utf8Decode: seq<Byte> -> Option<string>,
    jsonParse: string -> Option<Json>)

  const RoleClaim: string := "role"
  const MicrosoftRoleClaim: string := "http://schemas.microsoft.com/ws/2008/06/identity/claims/role"
  const SubjectClaim: string := "sub"

  // ---------------------------------------------------------------------
  // base64url to base64

  /** `(4 - n % 4) % 4`: the fewest `=` that make the length a multiple of 4. */
  function PadLength(n: nat): (k: nat)
    ensures k <= 3
    ensures (n + k) % 4 == 0
  {
    (4 - n % 4) % 4
  }

  function Repeat(c: char, k: nat): (s: string)
    ensures |s| == k && forall i :: 0 <= i < k ==> s[i] == c
  {
    seq(k, _ => c)
  }

  /** `s.replace(/from/g, to)` for single characters. */
  function ReplaceAll(s: string, from: char, to: char): (r: string)
    ensures |r| == |s|
    ensures forall i :: 0 <= i < |s| ==> r[i] == if s[i] == from then to else s[i]
    decreases |s|
  {
    if |s| == 0 then ""
    else [if s[0] == from then to else s[0]] + ReplaceAll(s[1..], from, to)
  }

  /** The two replacements that turn the base64url alphabet back into the
      standard one: every `-` becomes `+`, every `_` becomes `/`, and
      nothing else changes. */
  function ToStandardAlphabet(s: string): (r: string)
    ensures |r| == |s|
    ensures '-' !in r && '_' !in r
    ensures forall i :: 0 <= i < |s| && s[i] == '-' ==> r[i] == '+'
    ensures forall i :: 0 <= i < |s| && s[i] == '_' ==> r[i] == '/'
    ensures forall i :: 0 <= i < |s| && s[i] != '-' && s[i] != '_' ==> r[i] == s[i]
  {
    ReplaceAll(ReplaceAll(s, '-', '+'), '_', '/')
  }

  /** The string handed to `atob`: the input padded with `=` to a multiple
      of four characters, then translated to the standard alphabet. */
  function PrepareBase64(input: string): (b: string)
    ensures |b| % 4 == 0 && |input| <= |b| <= |input| + 3
    ensures b[..|input|] == ToStandardAlphabet(input)
    ensures forall i :: |input| <= i < |b| ==> b[i] == '='
  {
    var r := ToStandardAlphabet(input + Repeat('=', PadLength(|input|)));
    assert forall i :: 0 <= i < |input| ==> (input + Repeat('=', PadLength(|input|)))[i] == input[i];
    r
  }

  /** What a token issuer writes for a standard base64 string: the URL-safe
      alphabet, with the padding dropped (section 2 of RFC 7515). */
  function ToBase64Url(body: string): string
  {
    ReplaceAll(ReplaceAll(body, '+', '-'), '/', '_')
  }

  /** Padding and translation exactly undo the issuer's base64url encoding:
      a standard base64 string whose unpadded `body` needs `k <= 2` padding
      characters comes back character for character. */
  lemma PrepareUndoesBase64Url(body: string, k: nat)
    requires k <= 2 && (|body| + k) % 4 == 0
    requires '-' !in body && '_' !in body && '=' !in body
    ensures PrepareBase64(ToBase64Url(body)) == body + Repeat('=', k)
  {
    var u := ToBase64Url(body);
    var b := PrepareBase64(u);
    assert PadLength(|u|) == k;
    assert forall i :: 0 <= i < |body| ==> b[i] == (body + Repeat('=', k))[i];
  }

  // ---------------------------------------------------------------------
  // bytes to text

  /** `('00' + code.toString(16)).slice(-2)`: the last two hex digits of the
      code, which are the two digits of `code % 256`. */
  function TwoHex(code: nat): (h: string)
    ensures |h| == 2 && Text.IsDigit(h[0], 16) && Text.IsDigit(h[1], 16)
    ensures Text.ParseRadix(h, 16) == code % 256
  {
    var hex := Text.Radix(code, 16);
    var padded := "00" + hex;
    var h := padded[|padded| - 2..];
    RadixLastDigit(code);
    if code < 16 then
      assert h == ['0', hex[0]];
      ParseTwoDigits('0', hex[0]);
      h
    else
      RadixLastDigit(code / 16);
      var q := Text.Radix(code / 16, 16);
      assert hex == q + [Text.DigitChar(code % 16)];
      assert h == [q[|q| - 1], hex[|hex| - 1]];
      ParseTwoDigits(h[0], h[1]);
      Mod256(code);
      h
  }

  lemma ParseTwoDigits(a: char, b: char)
    requires Text.IsDigit(a, 16) && Text.IsDigit(b, 16)
    ensures Text.ParseRadix([a, b], 16) == Text.DigitValue(a) * 16 + Text.DigitValue(b)
    ensures Text.ParseRadix([a, b], 16) < 256
  {
    assert [a, b][..1] == [a];
    assert [a][..0] == [];
    assert Text.ParseRadix([a], 16) == Text.DigitValue(a);
  }

  lemma Mod256(code: nat)
    ensures code % 256 == ((code / 16) % 16) * 16 + code % 16
  {
  }

  lemma RadixLastDigit(n: nat)
    ensures var s := Text.Radix(n, 16); s[|s| - 1] == Text.DigitChar(n % 16)
    ensures Text.DigitValue(Text.DigitChar(n % 16)) == n % 16
  {
    Text.DigitValueOfChar(n % 16);
  }

  /** The byte each character stands for: its code modulo 256, as the
      two-hex-digit escape keeps it. */
  function Bytes(s: string): (bs: seq<Byte>)
    ensures |bs| == |s|
    ensures forall i :: 0 <= i < |s| ==> bs[i] == (s[i] as int) % 256
  {
    seq(|s|, i requires 0 <= i < |s| => (s[i] as int) % 256)
  }

  /** The `%hh` string built from the decoded characters: one triplet per
      character, `%` followed by the character's two hex digits. */
  function PercentEscape(s: string): (t: string)
    ensures |t| == 3 * |s|
    ensures forall i :: 0 <= i < |s| ==> t[3 * i] == '%' && t[3 * i + 1..3 * i + 3] == TwoHex(s[i] as int)
    decreases |s|
  {
    if |s| == 0 then ""
    else
      var head := "%" + TwoHex(s[0] as int);
      var rest := PercentEscape(s[1..]);
      assert (head + rest)[1..3] == TwoHex(s[0] as int);
      forall i | 1 <= i < |s|
        ensures (head + rest)[3 * i] == '%' && (head + rest)[3 * i + 1..3 * i + 3] == TwoHex(s[i] as int)
      {
        var m := 3 * (i - 1);
        assert 3 * i == m + 3;
        assert s[1..][i - 1] == s[i];
        ShiftTriplet(head, rest, m);
      }
      head + rest
  }

  lemma ShiftTriplet(head: string, rest: string, m: nat)
    requires |head| == 3 && m + 3 <= |rest|
    ensures (head + rest)[m + 3] == rest[m] && (head + rest)[m + 4..m + 6] == rest[m + 1..m + 3]
  {
  }

  /** The percent-decoding of `decodeURIComponent` on a string made only of
      `%hh` triplets (the only strings it is given here); `None` when a
      triplet is malformed. */
  function Unescape(t: string): (bs: Option<seq<Byte>>)
    decreases |t|
  {
    if |t| == 0 then Some([])
    else if |t| >= 3 && t[0] == '%' && Text.IsDigit(t[1], 16) && Text.IsDigit(t[2], 16) then
      ParseTwoDigits(t[1], t[2]);
      assert t[1..3] == [t[1], t[2]];
      match Unescape(t[3..])
      case None => None
      case Some(rest) => Some([Text.ParseRadix(t[1..3], 16) as Byte] + rest)
    else None
  }

  /** Percent-escaping never produces a malformed triplet, and unescaping it
      recovers exactly the byte of every character. */
  lemma {:induction false} UnescapePercentEscape(s: string)
    ensures Unescape(PercentEscape(s)) == Some(Bytes(s))
    decreases |s|
  {
    if |s| > 0 {
      var t := PercentEscape(s);
      var h := TwoHex(s[0] as int);
      assert t == "%" + h + PercentEscape(s[1..]);
      assert t[1..3] == h && t[3..] == PercentEscape(s[1..]);
      UnescapePercentEscape(s[1..]);
      assert Bytes(s) == [Bytes(s)[0]] + Bytes(s[1..]);
    }
  }

  /** `decodeURIComponent`: percent-decode, then decode the bytes as UTF-8;
      it throws (`None`) when either step fails. */
  function DecodeUriComponent(p: Platform, t: string): (r: Option<string>)
    ensures Unescape(t).None? ==> r.None?
    ensures Unescape(t).Some? ==> r == p.utf8Decode(Unescape(t).value)
  {
    match Unescape(t)
    case None => None
    case Some(bs) => p.utf8Decode(bs)
  }

  /** Decoding the escape of a string is the UTF-8 reading of its bytes. */
  lemma DecodeUriComponentOfEscape(p: Platform, s: string)
    ensures DecodeUriComponent(p, PercentEscape(s)) == p.utf8Decode(Bytes(s))
  {
    UnescapePercentEscape(s);
  }

  /** `base64UrlDecode`: fails only when `atob` rejects the prepared string;
      otherwise it yields the UTF-8 reading of the decoded bytes, or the raw
      byte string itself when those bytes are not valid UTF-8. */
  function Base64UrlDecode(p: Platform, input: string): (r: Option<string>)
    ensures r.None? <==> p.atob(PrepareBase64(input)).None?
    ensures r.Some? ==>
      var raw := p.atob(PrepareBase64(input)).value;
      r.value == (if p.utf8Decode(Bytes(raw)).Some? then p.utf8Decode(Bytes(raw)).value else raw)
  {
    match p.atob(PrepareBase64(input))
    case None => None
    case Some(decoded) =>
      DecodeUriComponentOfEscape(p, decoded);
      match DecodeUriComponent(p, PercentEscape(decoded))
      case Some(text) => Some(text)
      case None => Some(decoded)
  }

  // ---------------------------------------------------------------------
  // token to claims

  /** What `decodeJwt` returns for a parse outcome: JavaScript has one
      `null`, so a thrown parse and a parsed `null` are the same result. */
  function AsPayload(parsed: Option<Json>): (payload: Option<Json>)
    ensures payload.None? <==> Nullish(parsed)
    ensures payload.Some? ==> payload == parsed
  {
    match parsed
    case Some(JNull) => None
    case _ => parsed
  }

  /** Decoding of one payload segment: base64url, then `JSON.parse`. It is
      `null` (None) when either step throws or the claims are `null`. */
  function DecodeSegment(p: Platform, segment: string): (payload: Option<Json>)
    ensures Base64UrlDecode(p, segment).None? ==> payload.None?
    ensures Base64UrlDecode(p, segment).Some? ==>
      payload == AsPayload(p.jsonParse(Base64UrlDecode(p, segment).value))
    ensures payload.Some? ==> !payload.value.JNull?
  {
    match Base64UrlDecode(p, segment)
    case None => None
    case Some(text) => AsPayload(p.jsonParse(text))
  }

  /** `decodeJwt`: `null` (None) unless the token has exactly three
      dot-separated segments, and otherwise the decoding of the middle one. */
  function DecodeJwt(p: Platform, token: string): (payload: Option<Json>)
    ensures Text.Count(token, '.') != 2 ==> payload.None?
    ensures Text.Count(token, '.') == 2 ==> payload == DecodeSegment(p, Text.Split(token, '.')[1])
  {
    var parts := Text.Split(token, '.');
    if |parts| != 3 then None else DecodeSegment(p, parts[1])
  }

  /** The claims depend on the middle segment only: header and signature
      are neither read nor checked. */
  lemma DecodeJwtReadsOnlyPayload(p: Platform, header: string, payload: string, signature: string)
    requires '.' !in header && '.' !in payload && '.' !in signature
    ensures DecodeJwt(p, header + "." + payload + "." + signature) == DecodeSegment(p, payload)
  {
    Text.SplitThree(header, payload, signature, '.');
  }

  /** Round trip: a token whose payload segment is the base64url form of a
      standard base64 string decodes to whatever the browser decodes and
      parses from that string, whatever its header and signature. */
  lemma DecodeJwtRoundTrip(p: Platform, header: string, body: string, k: nat, signature: string,
                           raw: string, text: string, claims: Json)
    requires k <= 2 && (|body| + k) % 4 == 0
    requires '-' !in body && '_' !in body && '=' !in body && '.' !in body
    requires '.' !in header && '.' !in signature
    requires p.atob(body + Repeat('=', k)) == Some(raw)
    requires p.utf8Decode(Bytes(raw)) == Some(text)
    requires p.jsonParse(text) == Some(claims)
    ensures DecodeJwt(p, header + "." + ToBase64Url(body) + "." + signature)
            == (if claims.JNull? then None else Some(claims))
  {
    var segment := ToBase64Url(body);
    assert '.' !in segment by {
      assert forall i :: 0 <= i < |segment| ==> segment[i] != '.';
    }
    DecodeJwtReadsOnlyPayload(p, header, segment, signature);
    PrepareUndoesBase64Url(body, k);
  }

  /** When the decoded bytes are not UTF-8, the claims are parsed from the
      raw byte string instead of the token being rejected. */
  lemma Utf8FailureFallsBackToRaw(p: Platform, segment: string, raw: string)
    requires p.atob(PrepareBase64(segment)) == Some(raw)
    requires p.utf8Decode(Bytes(raw)).None?
    ensures DecodeSegment(p, segment) == AsPayload(p.jsonParse(raw))
  {
  }

  /** What `payload?.sub` can be: the `sub` claim of an object payload, or,
      for a payload that parsed to a JSON string, the string method
      `String.prototype.sub` that every string inherits (a function, and
      so truthy). */
  datatype TeacherId = Claim(claim: Json) | StringSubMethod

  /** `String(f)` of the built-in `sub` method, as browsers print it. */
  const StringSubMethodText: string := "function sub() { [native code] }"

  /** `payload?.sub`, which the pages use as the teacher id: the subject
      claim of an object, the inherited method of a string, and `undefined`
      (None) for everything else. */
  function Subject(payload: Option<Json>): (sub: Option<TeacherId>)
    ensures sub == Some(StringSubMethod) <==> payload.Some? && payload.value.JStr?
    ensures (sub.Some? && sub.value.Claim?) <==>
      payload.Some? && payload.value.JObj? && SubjectClaim in payload.value.fields
    ensures sub.Some? && sub.value.Claim? ==> sub.value.claim == payload.value.fields[SubjectClaim]
  {
    match payload
    case Some(JStr(_)) => Some(StringSubMethod)
    case _ =>
      match Prop(payload, SubjectClaim)
      case Some(v) => Some(Claim(v))
      case None => None
  }

  /** `!!teacherId`: a claim by its JavaScript truthiness, the method always. */
  predicate TruthyTeacher(t: Option<TeacherId>)
  {
    t.Some? && (t.value.StringSubMethod? || Truthy(t.value.claim))
  }

  /** A payload that parsed to a JSON string passes every teacher-id guard,
      although it carries no claims at all. */
  lemma StringPayloadHasTeacherId(s: string)
    ensures Subject(Some(JStr(s))) == Some(StringSubMethod)
    ensures TruthyTeacher(Subject(Some(JStr(s))))
    ensures GetRoles(Some(JStr(s))) == []
  {
  }

  /** `String(teacherId)`: the claim converted, or the method's source text. */
  function TeacherIdText(t: TeacherId): (text: string)
    ensures t.Claim? ==> text == ToJsString(t.claim)
    ensures t.StringSubMethod? ==> text == StringSubMethodText
  {
    match t
    case Claim(v) => ToJsString(v)
    case StringSubMethod => StringSubMethodText
  }

  /** The `teacherUserId` field a JSON request body carries: the claim, or
      nothing at all for the method, which `JSON.stringify` leaves out. */
  function TeacherIdJson(t: TeacherId): (field: Option<Json>)
    ensures field.Some? <==> t.Claim?
    ensures t.Claim? ==> field.value == t.claim
  {
    match t
    case Claim(v) => Some(v)
    case StringSubMethod => None
  }

  // ---------------------------------------------------------------------
  // claims to roles

  /** Normalisation of the chosen role claim: nothing for a falsy value, one
      string per element (in order) for an array, one string otherwise. */
  function RoleValues(v: Option<Json>): (roles: seq<string>)
    ensures !TruthyOpt(v) ==> roles == []
    ensures TruthyOpt(v) && v.value.JArr? ==> |roles| == |v.value.items|
    ensures TruthyOpt(v) && v.value.JArr? ==>
      forall i :: 0 <= i < |roles| ==> roles[i] == ToJsString(v.value.items[i])
    ensures TruthyOpt(v) && !v.value.JArr? ==> roles == [ToJsString(v.value)]
    ensures TruthyOpt(v) && v.value.JStr? ==> roles == [v.value.s]
  {
    match v
    case None => []
    case Some(x) =>
      if !Truthy(x) then []
      else match x
        case JArr(items) => MapToJsString(items)
        case _ => [ToJsString(x)]
  }

  /** `getRoles`: the `role` claim when it is neither missing nor `null`,
      otherwise the Microsoft role claim; a falsy `role` therefore hides
      the fallback. A missing, falsy or non-object payload has no roles. */
  function GetRoles(payload: Option<Json>): (roles: seq<string>)
    ensures !TruthyOpt(payload) ==> roles == []
    ensures payload.Some? && !payload.value.JObj? ==> roles == []
    ensures !Nullish(Prop(payload, RoleClaim)) ==> roles == RoleValues(Prop(payload, RoleClaim))
    ensures Nullish(Prop(payload, RoleClaim)) ==> roles == RoleValues(Prop(payload, MicrosoftRoleClaim))
  {
    if !TruthyOpt(payload) then []
    else RoleValues(Coalesce(Prop(payload, RoleClaim), Prop(payload, MicrosoftRoleClaim)))
  }

  /** A present but falsy `role` (empty string, `false`, `0`) yields no roles
      even when the Microsoft claim holds some. */
  lemma FalsyRoleBlocksFallback(claims: map<string, Json>)
    requires RoleClaim in claims && claims[RoleClaim] != JNull && !Truthy(claims[RoleClaim])
    ensures GetRoles(Some(JObj(claims))) == []
  {
  }

  /** Scenario: `{"sub":"42","role":"Teacher","exp":9999999999}`. */
  lemma SingleRoleClaim()
    ensures GetRoles(Some(JObj(map["sub" := JStr("42"), "role" := JStr("Teacher"),
                                   "exp" := JNum(9999999999)]))) == ["Teacher"]
  {
  }

  /** Scenario: `{"role":["Teacher","SuperAdmin"]}`. */
  lemma RoleArrayClaim()
    ensures GetRoles(Some(JObj(map["role" := JArr([JStr("Teacher"), JStr("SuperAdmin")])])))
            == ["Teacher", "SuperAdmin"]
  {
  }
}

=== FILE: resources_page.dfy ===
/** The list rules of the resources page (src/pages/ResourcesPage.tsx): which
    classroom is selected after the classroom list loads, the category
    defaulting of loaded resources, the category filter, the displayed
    classroom name, and the guards of `load` and `upload`. */
module ResourcesPage {
  import opened Wrappers
  import opened JsValue
  import opened Api
  import Seqs
  import Jwt

  const DefaultCategory: string := "Past Papers"
  const Categories: seq<string> := ["Past Papers", "Revision", "Class work"]
  const UnknownClassroom: string := "Unknown"
  const ClassroomsFailedText: string := "Failed to load classrooms"
  const ResourcesFailedText: string := "Failed to load resources"
  const UploadFailedText: string := "Upload failed"

  function HasId(id: int): Classroom -> bool
  {
    (c: Classroom) => c.id == id
  }

  /** The classroom selected once the list has loaded: the one named in the
      URL when it is non-zero and listed, else the first listed one, else the
      current selection. */
  function ChooseClassroom(urlId: int, data: seq<Classroom>, current: int): (id: int)
    ensures urlId != 0 && (exists i :: 0 <= i < |data| && data[i].id == urlId) ==> id == urlId
    ensures (urlId == 0 || forall i :: 0 <= i < |data| ==> data[i].id != urlId) && |data| > 0 ==>
      id == data[0].id
    ensures |data| == 0 ==> id == current
    ensures id == current || exists i :: 0 <= i < |data| && data[i].id == id
  {
    if urlId != 0 && Seqs.Any(data, HasId(urlId)) then urlId
    else if |data| > 0 then data[0].id
    else current
  }

  /** `{ ...item, category: item.category || 'Past Papers' }`. */
  function WithCategory(r: Resource): Resource
  {
    r.(category := Some(if r.category.Some? && r.category.value != "" then r.category.value
                        else DefaultCategory))
  }

  /** The defaulting applied to a loaded resource list: same length and
      order, every other field kept, a non-empty category kept, a missing or
      empty one replaced by the default. */
  function WithDefaultCategories(data: seq<Resource>): (items: seq<Resource>)
    ensures |items| == |data|
    ensures forall i :: 0 <= i < |data| ==>
      items[i].id == data[i].id && items[i].classroomId == data[i].classroomId &&
      items[i].fileName == data[i].fileName && items[i].uploadedAt == data[i].uploadedAt
    ensures forall i :: 0 <= i < |data| ==> items[i].category.Some? && items[i].category.value != ""
    ensures forall i :: 0 <= i < |data| && data[i].category.Some? && data[i].category.value != "" ==>
      items[i].category == data[i].category
    ensures forall i :: 0 <= i < |data| && (data[i].category.None? || data[i].category.value == "") ==>
      items[i].category == Some(DefaultCategory)
  {
    seq(|data|, i requires 0 <= i < |data| => WithCategory(data[i]))
  }

  /** Defaulting twice changes nothing more than defaulting once. */
  lemma DefaultingIsIdempotent(data: seq<Resource>)
    ensures WithDefaultCategories(WithDefaultCategories(data)) == WithDefaultCategories(data)
  {
  }

  function InCategory(category: string): Resource -> bool
  {
    (r: Resource) => r.category == Some(category)
  }

  /** `filteredRows`: the rows of the selected category, in list order, each
      as often as it occurs, and no other row. */
  function FilteredRows(items: seq<Resource>, selected: string): (rows: seq<Resource>)
    ensures forall i :: 0 <= i < |rows| ==> rows[i].category == Some(selected)
    ensures forall r :: multiset(rows)[r] == if r.category == Some(selected) then multiset(items)[r] else 0
    ensures Seqs.IsSubsequence(rows, items)
  {
    Seqs.Filter(items, InCategory(selected))
  }

  /** A resource loaded without a category is listed under the default one. */
  lemma UncategorisedListedByDefault(data: seq<Resource>, i: nat)
    requires i < |data| && (data[i].category.None? || data[i].category.value == "")
    ensures var items := WithDefaultCategories(data);
      items[i] in FilteredRows(items, DefaultCategory)
  {
    var items := WithDefaultCategories(data);
    Seqs.FilterKeeps(items, InCategory(DefaultCategory), i);
  }

  /** `classrooms.find((c) => c.id === id)`: the position of the first match. */
  function FindById(classrooms: seq<Classroom>, id: int): (k: Option<nat>)
    ensures k.Some? ==> k.value < |classrooms| && classrooms[k.value].id == id
    ensures k.Some? ==> forall j :: 0 <= j < k.value ==> classrooms[j].id != id
    ensures k.None? ==> forall j :: 0 <= j < |classrooms| ==> classrooms[j].id != id
    decreases |classrooms|
  {
    if |classrooms| == 0 then None
    else if classrooms[0].id == id then Some(0)
    else
      match FindById(classrooms[1..], id)
      case None => None
      case Some(k) => Some(k + 1)
  }

  /** `selectedClassroomName`: the name of the first classroom with the
      selected id, `Unknown` when there is none or its name is empty. */
  function SelectedClassroomName(classrooms: seq<Classroom>, id: int): (name: string)
    ensures name != ""
    ensures (forall j :: 0 <= j < |classrooms| ==> classrooms[j].id != id) ==> name == UnknownClassroom
    ensures forall k :: 0 <= k < |classrooms| && classrooms[k].id == id &&
                        (forall j :: 0 <= j < k ==> classrooms[j].id != id) ==>
              name == (if classrooms[k].name == "" then UnknownClassroom else classrooms[k].name)
  {
    match FindById(classrooms, id)
    case None => UnknownClassroom
    case Some(k) => if classrooms[k].name == "" then UnknownClassroom else classrooms[k].name
  }

  datatype File = File(name: string)

  /** The page's state. */
  datatype PageState = PageState(classrooms: seq<Classroom>, classroomId: int, items: seq<Resource>,
                                 busy: bool, err: Option<Json>, file: Option<File>,
                                 selectedCategory: string)

  /** The state on mount: nothing loaded, not busy, no error or file, the
      default category shown, and the classroom named in the URL selected,
      so the first `load` asks for that classroom unless the id is 0. */
  function Initial(urlId: int): (st: PageState)
    ensures st.classrooms == [] && st.items == [] && st.file.None? && st.err.None? && !st.busy
    ensures st.selectedCategory == DefaultCategory
    ensures ResourceListRequest(st) == (if urlId == 0 then None else Some(urlId))
  {
    PageState([], urlId, [], false, None, None, DefaultCategory)
  }

  /** The error banner as the page renders it: only inside the classroom
      picker, which exists only while some classroom is listed. */
  function ShownError(st: PageState): (shown: Option<string>)
    ensures shown.Some? <==> |st.classrooms| > 0 && TruthyOpt(st.err)
    ensures shown.Some? ==> shown.value == ToJsString(st.err.value)
  {
    if |st.classrooms| > 0 then ErrorBanner(st.err) else None
  }

  /** A classroom list that fails to load on mount leaves nothing listed, so
      its error text is never displayed. */
  lemma ClassroomLoadFailureHidden(urlId: int, responseData: Option<Json>)
    ensures var st := AfterLoadClassrooms(Initial(urlId), urlId, FetchFailed(responseData));
      st.err == Some(JStr(ClassroomsFailedText)) && ShownError(st).None?
  {
  }

  /** `loadClassrooms` once its request has settled: a loaded list is
      stored and a classroom chosen from it (the URL's when it is non-zero
      and listed, else the first); a failure only sets the fixed error text.
      Neither touches the resource list, the busy flag, the file or the
      category. */
  function AfterLoadClassrooms(st: PageState, urlId: int, outcome: Fetch<seq<Classroom>>): (st': PageState)
    ensures outcome.Fetched? ==> st'.classrooms == outcome.data && st'.err == st.err
    ensures outcome.Fetched? && urlId != 0 && (exists i :: 0 <= i < |outcome.data| && outcome.data[i].id == urlId) ==>
      st'.classroomId == urlId
    ensures outcome.Fetched? && (urlId == 0 || forall i :: 0 <= i < |outcome.data| ==> outcome.data[i].id != urlId) &&
            |outcome.data| > 0 ==>
      st'.classroomId == outcome.data[0].id
    ensures outcome.Fetched? && |outcome.data| == 0 ==> st'.classroomId == st.classroomId
    ensures outcome.FetchFailed? ==>
      st'.err == Some(JStr(ClassroomsFailedText)) && st'.classrooms == st.classrooms && st'.classroomId == st.classroomId
    ensures st'.items == st.items && st'.busy == st.busy && st'.file == st.file &&
            st'.selectedCategory == st.selectedCategory
  {
    match outcome
    case Fetched(data) => st.(classrooms := data, classroomId := ChooseClassroom(urlId, data, st.classroomId))
    case FetchFailed(_) => st.(err := Some(JStr(ClassroomsFailedText)))
  }

  /** The classroom whose resources `load` requests: none while no
      classroom is selected (id 0). */
  function ResourceListRequest(st: PageState): (req: Option<int>)
    ensures req.Some? <==> st.classroomId != 0
    ensures req.Some? ==> req.value == st.classroomId
  {
    if st.classroomId == 0 then None else Some(st.classroomId)
  }

  /** `load` once its request has settled: nothing happens for classroom 0;
      loaded rows get their categories defaulted; a failure only sets the
      error. */
  function AfterLoadResources(st: PageState, outcome: Fetch<seq<Resource>>): (st': PageState)
    ensures st.classroomId == 0 ==> st' == st
    ensures st.classroomId != 0 ==> !st'.busy && st'.classroomId == st.classroomId
    ensures st'.classrooms == st.classrooms && st'.file == st.file && st'.selectedCategory == st.selectedCategory
    ensures st.classroomId != 0 && outcome.Fetched? ==>
      st'.items == WithDefaultCategories(outcome.data) && st'.err.None?
    ensures st.classroomId != 0 && outcome.FetchFailed? ==>
      st'.items == st.items && st'.err == Some(ErrorValue(outcome.responseData, ResourcesFailedText))
  {
    match ResourceListRequest(st)
    case None => st
    case Some(_) =>
      match outcome
      case Fetched(data) => st.(items := WithDefaultCategories(data), err := None, busy := false)
      case FetchFailed(responseData) =>
        st.(err := Some(ErrorValue(responseData, ResourcesFailedText)), busy := false)
  }

  /** What `upload` sends: the form field `TeacherUserId` is
      `String(teacherId)`. The selected category is passed by the page but
      dropped by the API wrapper, so it is not part of the request. */
  datatype UploadRequest = UploadRequest(classroomId: int, file: File, teacherId: string)

  /** The request `upload` sends: none unless a classroom is selected, a
      file is chosen and `payload?.sub` is truthy. */
  function UploadRequestFor(st: PageState, payload: Option<Json>): (req: Option<UploadRequest>)
    ensures req.Some? <==> st.classroomId != 0 && st.file.Some? && Jwt.TruthyTeacher(Jwt.Subject(payload))
    ensures payload.None? ==> req.None?
    ensures req.Some? ==>
      req.value.classroomId == st.classroomId && req.value.file == st.file.value &&
      req.value.teacherId == Jwt.TeacherIdText(Jwt.Subject(payload).value)
  {
    if st.classroomId == 0 || st.file.None? || !Jwt.TruthyTeacher(Jwt.Subject(payload)) then None
    else Some(UploadRequest(st.classroomId, st.file.value, Jwt.TeacherIdText(Jwt.Subject(payload).value)))
  }

  /** A payload that parsed to a JSON string passes the upload guard, and the
      form carries the method's source text as the teacher id. */
  lemma StringPayloadUploadsMethodText(st: PageState, s: string)
    requires st.classroomId != 0 && st.file.Some?
    ensures UploadRequestFor(st, Some(JStr(s))) ==
      Some(UploadRequest(st.classroomId, st.file.value, Jwt.StringSubMethodText))
  {
  }

  /** `upload` once its requests have settled: nothing without a request; on
      success the file is cleared and the list reloaded; on failure the file
      stays and the error is set. Either way the page is no longer busy. */
  function AfterUpload(st: PageState, payload: Option<Json>, uploaded: Fetch<int>,
                       reload: Fetch<seq<Resource>>): (st': PageState)
    ensures UploadRequestFor(st, payload).None? ==> st' == st
    ensures UploadRequestFor(st, payload).Some? ==> !st'.busy && st'.classroomId == st.classroomId
    ensures st'.classrooms == st.classrooms && st'.selectedCategory == st.selectedCategory
    ensures UploadRequestFor(st, payload).Some? && uploaded.Fetched? ==> st'.file.None?
    ensures UploadRequestFor(st, payload).Some? && uploaded.Fetched? && reload.Fetched? ==>
      st'.items == WithDefaultCategories(reload.data) && st'.err.None?
    ensures UploadRequestFor(st, payload).Some? && uploaded.Fetched? && reload.FetchFailed? ==>
      st'.items == st.items && st'.err == Some(ErrorValue(reload.responseData, ResourcesFailedText))
    ensures UploadRequestFor(st, payload).Some? && uploaded.FetchFailed? ==>
      st'.file == st.file && st'.items == st.items &&
      st'.err == Some(ErrorValue(uploaded.responseData, UploadFailedText))
  {
    match UploadRequestFor(st, payload)
    case None => st
    case Some(_) =>
      match uploaded
      case Fetched(_) =>
        AfterLoadResources(st.(err := None, busy := true, file := None), reload).(busy := false)
      case FetchFailed(responseData) =>
        st.(err := Some(ErrorValue(responseData, UploadFailedText)), busy := false)
  }
}

=== FILE: role_guard.dfy ===
/** The route gate (src/auth/RoleGuard.tsx): anonymous visitors go to the
    login page, authenticated users without an allowed role go to the
    classroom list, everyone else sees the guarded page. */
module RoleGuard {
  import opened Wrappers
  import AuthContext
  import Jwt
  import Seqs
  import Text

  const LoginPath: string := "/login"
  const FallbackPath: string := "/classrooms"

  /** The allow list of the admin page (src/pages/AdminPage.tsx). */
  const AdminRoles: seq<string> := ["SuperAdmin", "Super Admin", "Admin"]

  datatype Decision = Redirect(to: string) | RenderChildren

  /** `roles.some((r) => allow.includes(r))`, with string equality. */
  function AnyAllowed(roles: seq<string>, allow: seq<string>): (ok: bool)
    ensures ok <==> exists i :: 0 <= i < |roles| && roles[i] in allow
  {
    Seqs.Any(roles, (r: string) => r in allow)
  }

  /** The three-way decision. */
  function Guard(isAuthed: bool, roles: seq<string>, allow: seq<string>): (d: Decision)
    ensures !isAuthed ==> d == Redirect(LoginPath)
    ensures isAuthed && (exists i :: 0 <= i < |roles| && roles[i] in allow) ==> d == RenderChildren
    ensures isAuthed && (forall i :: 0 <= i < |roles| ==> roles[i] !in allow) ==> d == Redirect(FallbackPath)
  {
    if !isAuthed then Redirect(LoginPath)
    else if !AnyAllowed(roles, allow) then Redirect(FallbackPath)
    else RenderChildren
  }

  /** With no role, or nothing allowed, an authenticated user is always sent
      to the classroom list. */
  lemma EmptyListRedirects(roles: seq<string>, allow: seq<string>)
    requires roles == [] || allow == []
    ensures Guard(true, roles, allow) == Redirect(FallbackPath)
  {
  }

  /** The gate as a page sees it, reading the session through `useAuth`:
      the login page without a truthy token, and otherwise the page exactly
      when one of the roles decoded from the token is allowed. */
  function GuardSession(p: Jwt.Platform, s: AuthContext.Session, allow: seq<string>): (d: Decision)
    ensures !AuthContext.Present(s.token) ==> d == Redirect(LoginPath)
    ensures d == RenderChildren ==> AuthContext.Present(s.token)
    ensures AuthContext.Present(s.token) ==>
      var roles := Jwt.GetRoles(Jwt.DecodeJwt(p, s.token.value));
      d == (if exists i :: 0 <= i < |roles| && roles[i] in allow then RenderChildren else Redirect(FallbackPath))
  {
    var st := AuthContext.State(p, s);
    Guard(st.isAuthed, st.roles, allow)
  }

  /** A session holding a malformed token is let past the login redirect but
      never into a role-gated page. */
  lemma MalformedTokenNeverRenders(p: Jwt.Platform, s: AuthContext.Session, t: string, allow: seq<string>)
    requires t != "" && Text.Count(t, '.') != 2
    ensures GuardSession(p, AuthContext.SetToken(s, Some(t)), allow) == Redirect(FallbackPath)
  {
    AuthContext.MalformedTokenIsAuthedWithoutRoles(p, s, t);
  }

  /** A teacher is turned away from the admin page; a super-admin who is also
      a teacher is let in. */
  lemma AdminPageGate()
    ensures Guard(true, ["Teacher"], AdminRoles) == Redirect(FallbackPath)
    ensures Guard(true, ["Teacher", "SuperAdmin"], AdminRoles) == RenderChildren
  {
    assert ["Teacher", "SuperAdmin"][1] in AdminRoles;
  }
}

=== FILE: seqs.dfy ===
/** Sequence helpers with the meaning of JavaScript's `Array.prototype.filter`
    and `Array.prototype.some`. */
module Seqs {

  /** `a` can be obtained from `b` by deleting elements (order kept). */
  predicate IsSubsequence<T(==)>(a: seq<T>, b: seq<T>)
    decreases |b|
  {
    if |a| == 0 then true
    else if |b| == 0 then false
    else if a[|a| - 1] == b[|b| - 1] then IsSubsequence(a[..|a| - 1], b[..|b| - 1])
    else IsSubsequence(a, b[..|b| - 1])
  }

  /** `s.filter(p)`: keeps, in order, exactly the elements satisfying `p`,
      each as many times as it occurs in `s`. */
  function Filter<T(==,!new)>(s: seq<T>, p: T -> bool): (r: seq<T>)
    ensures |r| <= |s|
    ensures forall i :: 0 <= i < |r| ==> p(r[i])
    ensures forall x :: multiset(r)[x] == if p(x) then multiset(s)[x] else 0
    ensures IsSubsequence(r, s)
    decreases |s|
  {
    if |s| == 0 then []
    else
      var init, last := s[..|s| - 1], s[|s| - 1];
      var r := Filter(init, p);
      assert s == init + [last];
      if p(last) then
        assert (r + [last])[..|r|] == r;
        r + [last]
      else
        assert |r| > 0 ==> r[|r| - 1] != last;
        r
  }

  /** Every element of `s` satisfying `p` survives the filter. */
  lemma FilterKeeps<T(!new)>(s: seq<T>, p: T -> bool, i: nat)
    requires i < |s| && p(s[i])
    ensures s[i] in Filter(s, p)
  {
    assert s[i] in multiset(s);
    assert multiset(Filter(s, p))[s[i]] > 0;
  }

  /** `s.some(p)`: some element satisfies `p`. */
  function Any<T>(s: seq<T>, p: T -> bool): (b: bool)
    ensures b <==> exists i :: 0 <= i < |s| && p(s[i])
    decreases |s|
  {
    if |s| == 0 then false
    else
      var b := p(s[0]) || Any(s[1..], p);
      assert forall i :: 1 <= i < |s| ==> s[i] == s[1..][i - 1];
      assert b ==> exists i :: 0 <= i < |s| && p(s[i]);
      b
  }
}

=== FILE: text.dfy ===
/** String helpers with the meaning JavaScript gives them: `split` on one
    separator character, `join`, positional numerals (`Number.prototype.toString`
    with a radix) and their parse-back. */
module Text {

  /** Number of occurrences of `c` in `s`. */
  function Count(s: string, c: char): nat
    decreases |s|
  {
    if |s| == 0 then 0 else (if s[0] == c then 1 else 0) + Count(s[1..], c)
  }

  /** `parts.join(sep)`. */
  function Join(parts: seq<string>, sep: char): string
    decreases |parts|
  {
    if |parts| == 0 then ""
    else if |parts| == 1 then parts[0]
    else parts[0] + [sep] + Join(parts[1..], sep)
  }

  /** `s.split(sep)` for a one-character separator: there is always at least
      one part, one more than there are separators, no part contains the
      separator, and joining the parts back gives `s`. */
  function Split(s: string, sep: char): (parts: seq<string>)
    ensures |parts| == Count(s, sep) + 1
    ensures forall i :: 0 <= i < |parts| ==> sep !in parts[i]
    ensures Join(parts, sep) == s
    decreases |s|
  {
    if |s| == 0 then [""]
    else
      var rest := Split(s[1..], sep);
      if s[0] == sep then
        assert ([""] + rest)[1..] == rest;
        [""] + rest
      else
        var parts := [[s[0]] + rest[0]] + rest[1..];
        assert parts[1..] == rest[1..];
        assert |rest| > 1 ==> Join(rest, sep) == rest[0] + [sep] + Join(rest[1..], sep);
        assert s == [s[0]] + s[1..];
        parts
  }

  /** Splitting a separator-free word followed by anything glues the word
      onto the first part of the rest. */
  lemma {:induction false} SplitWordThen(w: string, t: string, sep: char)
    requires sep !in w
    ensures Split(w + t, sep) == [w + Split(t, sep)[0]] + Split(t, sep)[1..]
    decreases |w|
  {
    if |w| == 0 {
      var st := Split(t, sep);
      assert w + t == t;
      assert w + st[0] == st[0];
      assert st == [st[0]] + st[1..];
    } else {
      SplitWordThen(w[1..], t, sep);
      assert (w + t)[1..] == w[1..] + t;
      assert (w + t)[0] == w[0];
      assert [w[0]] + (w[1..] + Split(t, sep)[0]) == w + Split(t, sep)[0];
    }
  }

  /** `split` undoes `join` when no part contains the separator. */
  lemma {:induction false} SplitJoin(parts: seq<string>, sep: char)
    requires |parts| >= 1
    requires forall i :: 0 <= i < |parts| ==> sep !in parts[i]
    ensures Split(Join(parts, sep), sep) == parts
    decreases |parts|
  {
    if |parts| == 1 {
      SplitWordThen(parts[0], "", sep);
      assert parts[0] + "" == parts[0];
    } else {
      var rest := parts[1..];
      SplitJoin(rest, sep);
      var t := [sep] + Join(rest, sep);
      assert Join(parts, sep) == parts[0] + t;
      SplitWordThen(parts[0], t, sep);
      assert t[1..] == Join(rest, sep);
      assert Split(t, sep) == [""] + rest;
      assert parts[0] + "" == parts[0];
      assert parts == [parts[0]] + rest;
    }
  }

  /** A three-segment string splits into exactly its three segments. */
  lemma SplitThree(a: string, b: string, c: string, sep: char)
    requires sep !in a && sep !in b && sep !in c
    ensures Split(a + [sep] + b + [sep] + c, sep) == [a, b, c]
  {
    calc {
      Join([a, b, c], sep);
      a + [sep] + Join([b, c], sep);
      a + [sep] + (b + [sep] + Join([c], sep));
      a + [sep] + b + [sep] + c;
    }
    SplitJoin([a, b, c], sep);
  }

  /** The digit character for `d`, in the lower-case alphabet that
      `Number.prototype.toString(radix)` writes. */
  function DigitChar(d: nat): char
    requires d < 16
  {
    if d < 10 then ('0' as int + d) as char else ('a' as int + d - 10) as char
  }

  /** Value of a digit character of either case; 16 for anything that is not a digit. */
  function DigitValue(c: char): nat
  {
    if '0' <= c <= '9' then c as int - '0' as int
    else if 'a' <= c <= 'f' then c as int - 'a' as int + 10
    else if 'A' <= c <= 'F' then c as int - 'A' as int + 10
    else 16
  }

  predicate IsDigit(c: char, radix: nat)
  {
    DigitValue(c) < radix
  }

  lemma DigitValueOfChar(d: nat)
    requires d < 16
    ensures DigitValue(DigitChar(d)) == d
  {
  }

  lemma DivMod(n: nat, radix: nat)
    requires 2 <= radix <= 16 && n >= radix
    ensures n % radix < radix && 0 < n / radix < n
    ensures n == (n / radix) * radix + n % radix
  {
  }

  /** `n.toString(radix)`: a numeral of digits of that radix, beginning with
      `'0'` only when it is the numeral of zero. */
  function Radix(n: nat, radix: nat): (s: string)
    requires 2 <= radix <= 16
    ensures |s| >= 1
    ensures forall i :: 0 <= i < |s| ==> IsDigit(s[i], radix)
    ensures s[0] == '0' <==> n == 0
    decreases n
  {
    if n < radix then DigitValueOfChar(n); [DigitChar(n)]
    else
      DivMod(n, radix);
      var q, d := n / radix, n % radix;
      DigitValueOfChar(d);
      Radix(q, radix) + [DigitChar(d)]
  }

  /** Reads a numeral written most-significant digit first. */
  function ParseRadix(s: string, radix: nat): nat
    requires forall i :: 0 <= i < |s| ==> IsDigit(s[i], radix)
    decreases |s|
  {
    if |s| == 0 then 0
    else ParseRadix(s[..|s| - 1], radix) * radix + DigitValue(s[|s| - 1])
  }

  /** Reading back a numeral gives the number written. */
  lemma {:induction false} ParseRadixOfRadix(n: nat, radix: nat)
    requires 2 <= radix <= 16
    ensures ParseRadix(Radix(n, radix), radix) == n
    decreases n
  {
    var s := Radix(n, radix);
    if n < radix {
      DigitValueOfChar(n);
      assert s[..0] == [];
    } else {
      DivMod(n, radix);
      DigitValueOfChar(n % radix);
      ParseRadixOfRadix(n / radix, radix);
      assert s[..|s| - 1] == Radix(n / radix, radix);
    }
  }

  /** An optionally signed decimal numeral. */
  predicate IsDecimal(s: string)
  {
    if |s| >= 1 && s[0] == '-' then
      |s| >= 2 && forall i :: 1 <= i < |s| ==> IsDigit(s[i], 10)
    else
      |s| >= 1 && forall i :: 0 <= i < |s| ==> IsDigit(s[i], 10)
  }

  function ParseDecimal(s: string): int
    requires IsDecimal(s)
  {
    var magnitude: int := ParseRadix(if s[0] == '-' then s[1..] else s, 10);
    if s[0] == '-' then -magnitude else magnitude
  }

  /** `String(n)` for an integer-valued JavaScript number: the canonical
      decimal numeral of `n`, which reads back as `n`, carries a sign only
      when `n` is negative and has no leading zero. */
  function Decimal(n: int): (s: string)
    ensures IsDecimal(s) && ParseDecimal(s) == n
    ensures s[0] == '-' <==> n < 0
    ensures s[0] == '0' ==> s == "0"
    ensures s[0] == '-' ==> s[1] != '0'
  {
    ParseRadixOfRadix(if n < 0 then -n else n, 10);
    if n < 0 then
      var d := Radix(-n, 10);
      assert ("-" + d)[1..] == d;
      "-" + d
    else Radix(n, 10)
  }
}

=== FILE: topbar.dfy ===
/** The title and role pill of the top bar (src/components/Topbar.tsx). */
module Topbar {
  import opened Wrappers
  import AuthContext
  import Jwt
  import Text

  /** Path prefixes with their titles, in the order they are tried. */
  const Titles: seq<(string, string)> := [
    ("/admin", "Admin"),
    ("/classrooms", "Classrooms"),
    ("/resources", "Resources"),
    ("/dashboard", "Dashboard"),
    ("/login", "Login"),
    ("/register", "Register")
  ]

  const DefaultTitle: string := "Classroom"
  const AnonymousPill: string := "User"

  /** `pageTitle`: the title of a listed prefix the path starts with, or the
      default title; `/admin` is tried first, so it always wins. */
  function PageTitle(path: string): (title: string)
    ensures title == DefaultTitle || exists i :: 0 <= i < |Titles| && Titles[i].0 <= path && Titles[i].1 == title
    ensures "/admin" <= path ==> title == "Admin"
  {
    if "/admin" <= path then assert Titles[0] == ("/admin", "Admin"); "Admin"
    else if "/classrooms" <= path then assert Titles[1] == ("/classrooms", "Classrooms"); "Classrooms"
    else if "/resources" <= path then assert Titles[2] == ("/resources", "Resources"); "Resources"
    else if "/dashboard" <= path then assert Titles[3] == ("/dashboard", "Dashboard"); "Dashboard"
    else if "/login" <= path then assert Titles[4] == ("/login", "Login"); "Login"
    else if "/register" <= path then assert Titles[5] == ("/register", "Register"); "Register"
    else "Classroom"
  }

  /** The title of a path is the title of the first listed prefix the path
      starts with, and the default title when none matches. */
  lemma PageTitleIsFirstMatch(path: string)
    ensures forall i ::
              (0 <= i < |Titles| && Titles[i].0 <= path && forall j :: 0 <= j < i ==> !(Titles[j].0 <= path))
              ==> PageTitle(path) == Titles[i].1
    ensures (forall i :: 0 <= i < |Titles| ==> !(Titles[i].0 <= path)) ==> PageTitle(path) == DefaultTitle
  {
    assert Titles[0] == ("/admin", "Admin");
    assert Titles[1] == ("/classrooms", "Classrooms");
    assert Titles[2] == ("/resources", "Resources");
    assert Titles[3] == ("/dashboard", "Dashboard");
    assert Titles[4] == ("/login", "Login");
    assert Titles[5] == ("/register", "Register");
    forall i | 0 <= i < |Titles| && Titles[i].0 <= path && forall j :: 0 <= j < i ==> !(Titles[j].0 <= path)
      ensures PageTitle(path) == Titles[i].1
    {
      assert i == 0 || i == 1 || i == 2 || i == 3 || i == 4 || i == 5;
    }
  }

  lemma NotPrefixWhenDiffer(a: string, b: string, ext: string, k: nat)
    requires k < |a| && k < |b| && a[k] != b[k]
    ensures !(a <= b + ext)
  {
    assert (b + ext)[k] == b[k];
  }

  /** Matching is by prefix: any extension of a listed prefix gets that
      prefix's title, since no earlier prefix is a prefix of it. */
  lemma ExtensionKeepsTitle(i: nat, ext: string)
    requires i < |Titles|
    ensures PageTitle(Titles[i].0 + ext) == Titles[i].1
  {
    var path := Titles[i].0 + ext;
    assert Titles[i].0 <= path;
    forall j | 0 <= j < i
      ensures !(Titles[j].0 <= path)
    {
      NotPrefixWhenDiffer(Titles[j].0, Titles[i].0, ext, if j == 2 && i == 5 then 3 else 1);
    }
    PageTitleIsFirstMatch(path);
  }

  /** The pill: the first role of an authenticated user, `User` when there
      is none; anonymous visitors get the login links instead (`None`). */
  function RolePill(isAuthed: bool, roles: seq<string>): (pill: Option<string>)
    ensures pill.Some? <==> isAuthed
    ensures pill.Some? && |roles| > 0 ==> pill.value == roles[0]
    ensures pill.Some? && |roles| == 0 ==> pill.value == AnonymousPill
  {
    if !isAuthed then None
    else if |roles| > 0 then Some(roles[0]) else Some(AnonymousPill)
  }

  /** A session holding a malformed non-empty token is authenticated but has
      no role, so its pill reads `User`. */
  lemma MalformedTokenShowsUserPill(p: Jwt.Platform, s: AuthContext.Session, t: string)
    requires t != "" && Text.Count(t, '.') != 2
    ensures var st := AuthContext.State(p, AuthContext.SetToken(s, Some(t)));
      RolePill(st.isAuthed, st.roles) == Some(AnonymousPill)
  {
    AuthContext.MalformedTokenIsAuthedWithoutRoles(p, s, t);
  }
}

=== FILE: wrappers.dfy ===
/** Absence and failure as values: the JavaScript `null`/`undefined` of the
    portal become `None`, a thrown error becomes `Failure`. */
module Wrappers {

  datatype Option<+T> = None | Some(value: T)

  datatype Result<+R, +E> = Success(value: R) | Failure(error: E)
}
